=== FILE: README.md ===
# Training-data discovery of `rasa/data.py`, modelled in Dafny

Rasa trains two models from two kinds of files: Core (dialogue) models from
story files and NLU models from NLU training data. `rasa/data.py` finds both
kinds under a list of project directories. It walks every directory below each
root. In a directory the skill selector does not import it skips that
directory's own files, but it still descends into its subdirectories. From the
directories it does not skip it keeps the `.json` and `.md` files. Each kept
file is sniffed by content: a JSON document is NLU data when its top-level
`rasa_nlu_data` key holds anything but `null`, and a Markdown file is NLU data
when one of its lines opens an NLU section (`## intent:`, `## regex:`,
`## synonym:`, `## lookup:` and a few looser spellings). All other kept files
are story files.
The two sets are then copied into fresh staging directories, each copy named
`<uuid4 hex>_<basename>` so that files with equal basenames do not overwrite
each other. The module also has two filename checks, `is_domain_file` and
`is_config_file`.

The model is organised as follows:

- `results.dfy`: `Option` and `Result`.
- `json.dfy`: parsed JSON values.
- `paths.dfy`: `os.path.join` and `os.path.basename` on `/`-separated
  strings. It also splits a path into the components used for lookup.
- `filetree.dfy`: the file system as one immutable directory tree. A file's
  body has two views of the same bytes: its text lines, and its JSON
  document if it parses.
- `nlupattern.dfy`: the Markdown line sniff. The regular expression is
  matched by a hand-written prefix matcher, which is proved equal to a
  declarative reading of the pattern.
- `classifier.dfy`: `_is_nlu_file` and its two error outcomes.
- `walker.dfy`: the top-down `os.walk` and the selector's pruning.
- `partitioning.dfy`: `_find_core_nlu_files_in_directory` and
  `_get_core_nlu_files`.
- `staging.dfy`: `_copy_files_to_new_dir`. The staging directory is modelled
  by its listing, a map from staged name to source path. The results of the
  `uuid4` calls are a sequence of tokens passed in.
- `data.dfy`: the three public entry points, the filename checks, and a
  worked example of a small project.

Three behaviours of the code are easy to miss. The model follows the code in
each case:

- A root that names no directory is not an error. `os.walk` reports nothing
  for it, so the root contributes no files (`Partitioning.FindInDirectory`).
- A JSON file whose `rasa_nlu_data` value is `false`, `{}` or `[]` is NLU data.
  The test is `is not None` (`Classifier.MarkerValueOnlyNeedsToBeNonNull`).
- The keyword must be followed at once by the colon, so a line that continues
  the keyword into a longer word, such as `## intentionally: x`, is not a header
  (`NluPattern.LongerWordDoesNotMatch`).

## Model

| member | source | states |
|---|---|---|
| NluPattern.ContainsNluPattern | rasa/data.py:129-132 | the matcher accepts a line exactly when some prefix of it is whitespace, `##`, whitespace, one of `intent`/`regex`/empty/`synonym`/`lookup`, then `:` (the declarative `NluHeader`) |
| NluPattern.SkipWhitespace | rasa/data.py:130 | returns the first position at or after `from` that is not `\s`; everything skipped is `\s` |
| NluPattern.ExtendedLineStillMatches | rasa/data.py:132 | `re.match` only needs a prefix: appending anything to a matching line keeps it matching |
| NluPattern.HeaderShapeMatches | rasa/data.py:130 | every line of the form whitespace, `##`, whitespace, keyword, `:`, anything matches |
| NluPattern.IntentHeaderMatches | rasa/data.py:130 | `## intent:greet` followed by anything matches |
| NluPattern.IndentedHeaderMatches | rasa/data.py:130 | `  ##intent:x` matches: leading whitespace is allowed and the space after `##` is optional |
| NluPattern.EmptyKeywordHeaderMatches | rasa/data.py:130 | the empty alternative between the two bars lets `## :` match |
| NluPattern.StoryHeaderDoesNotMatch | rasa/data.py:130 | a story header `## story: test` never matches, whatever follows it |
| NluPattern.SingleHashDoesNotMatch | rasa/data.py:130 | `# intent:` never matches: one `#` is not enough |
| NluPattern.KeywordWithoutColonDoesNotMatch | rasa/data.py:130 | `## ` and one of the four named keywords followed by any character other than `:` never matches, so neither a longer word nor whitespace may come before the colon |
| NluPattern.LongerWordDoesNotMatch | rasa/data.py:130 | `## intentionally: x` never matches: the keyword must be followed at once by `:` |
| NluPattern.TripleHashDoesNotMatch | rasa/data.py:130 | `###intent:` never matches: the third `#` is neither whitespace nor a keyword |
| NluPattern.NoHashNoMatch | rasa/data.py:130 | a line whose first non-whitespace character is not `#` never matches |
| NluPattern.HashesThenNoKeyword | rasa/data.py:130 | after `## `, a non-whitespace character that does not start a keyword with its colon means no match |
| Classifier.AnyLineMatches | rasa/data.py:125 | true exactly when some line of the file is an NLU section header |
| Classifier.IsNluFile | rasa/data.py:119-126 | fails exactly for a `.json` path whose text does not parse (`JSONDecodeError`) or whose top level is not an object (`AttributeError`), reporting that path; otherwise a `.json` file is NLU exactly when `rasa_nlu_data` is present and not `null`, and any other file is NLU exactly when one of its lines is a header |
| Classifier.EmptyMarkdownIsCore | rasa/data.py:125 | an empty `.md` file is Core data |
| Classifier.MarkerValueOnlyNeedsToBeNonNull | rasa/data.py:123 | `false` and `{}` as the marker value make NLU data; an explicit `null` or a missing key do not |
| Classifier.JsonIgnoresLines | rasa/data.py:121-123 | a `.json` file is judged by its document alone, never by header-like lines in its text |
| Classifier.MarkdownHeaderMakesNlu | rasa/data.py:124-125 | a non-JSON file with one header line is NLU data |
| Classifier.MarkdownIsNotJson | rasa/data.py:107 | a name ending in `.md` does not end in `.json`, so the two branches never overlap |
| Paths.Join | rasa/data.py:110 | `os.path.join`: an absolute name replaces the directory; otherwise the result starts with the directory and ends with the name |
| Paths.Basename | rasa/data.py:136 | `os.path.basename`: the part after the last `/`, which holds no `/` and ends the path |
| Paths.ComponentsJoin | rasa/data.py:110 | joining a plain file name adds exactly one component to the path |
| Paths.ComponentsJoinAll | rasa/data.py:102 | joining valid names one by one onto a directory path appends exactly those names to its components |
| Paths.ComponentsJoinAfterSeparator | rasa/data.py:110 | a name appended to a directory path that ends in `/` becomes its one new component |
| Paths.ComponentsJoinAddingSeparator | rasa/data.py:110 | a name joined with a new `/` onto a directory path becomes its one new component |
| Paths.BasenameJoin | rasa/data.py:152 | the basename of a joined path is the name that was joined |
| FileTree.FindNamed | rasa/data.py:102 | finds an element of a listing (files or subdirectories) with the given name, or reports that none has it |
| FileTree.LookupAppend | rasa/data.py:102 | looking up one more component continues from where the shorter lookup ended |
| FileTree.LookupWellFormed | rasa/data.py:102 | every directory found in a well-formed tree is well formed |
| FileTree.LookupNamesValid | rasa/data.py:102 | every name a successful lookup follows in a well-formed tree is a valid name |
| FileTree.ChildNameValid | rasa/data.py:102 | a name that finds an entry of a well-formed directory is a valid name |
| FileTree.ChildFile | rasa/data.py:102 | in a well-formed directory a listed file is found by its name |
| FileTree.ChildDir | rasa/data.py:102 | in a well-formed directory a listed subdirectory is found by its name |
| Walker.EmptySelector | rasa/data.py:75 | `SkillSelector.empty()`, the selector used when none is given: it restricts nothing and imports every path; its effect on the loader is stated by `Partitioning.NoSelectorImportsEverything` |
| Walker.ListFiles | rasa/data.py:106-110 | the files of one directory the walk reaches, in listing order, each under `os.path.join(root, f)`; that these paths name the listed files and that every file of an imported directory appears is stated by `WalkResolves` and `WalkComplete` |
| Walker.WalkDir | rasa/data.py:102-110 | every reported file sits in an imported directory and is reported under the path joined from that directory's path |
| Walker.WalkSubdirs | rasa/data.py:102 | the same for the walks of the remaining subdirectories |
| Walker.WalkResolves | rasa/data.py:102-110 | in a well-formed tree every reported path names the file reported with it |
| Walker.WalkSubdirsResolve | rasa/data.py:102-110 | the same for the walks of the remaining subdirectories |
| Walker.WalkDepth | rasa/data.py:102 | files reported from below a directory are listed under paths with more components than that directory's |
| Walker.WalkSubdirsDepth | rasa/data.py:102 | the same for the walks of the remaining subdirectories |
| Walker.WalkDirsReached | rasa/data.py:102 | every reported file was listed under a path built by joining valid names onto the walk's top |
| Walker.WalkSubdirsReached | rasa/data.py:102 | the same for the walks of the remaining subdirectories |
| Walker.ReachedThroughChild | rasa/data.py:102 | a directory reached from a child of the top is reached from the top along one more name |
| Walker.PrunedDirectoryReportsNoOwnFile | rasa/data.py:102-104 | when the selector does not import a directory the walk reaches, at any depth below the top, none of that directory's own files is reported |
| Walker.SameReachedDirectory | rasa/data.py:102-110 | two reported files with the same path were listed in directories reached along the same names |
| Walker.SubdirWalkIncluded | rasa/data.py:102 | each subdirectory's walk is part of the walk of its parent |
| Walker.WalkComplete | rasa/data.py:102-110 | every file of every directory reached under an imported path is reported, even below a pruned directory |
| Partitioning.Classify | rasa/data.py:106-114 | the loop over one walk: skips files without a `.json` or `.md` name, stops at the first sniff that raises, and otherwise adds each path to the NLU or the story set; its properties are stated by `ClassifySucceeds`, `ClassifyFirstError` and `ClassifySets` |
| Partitioning.FindInDirectory | rasa/data.py:96-116 | `_find_core_nlu_files_in_directory`: classifies the walk of the directory a root names, and finds nothing under a root that names no directory; see `FindInDirectorySound`, `ImportedFileIsPartitioned` and `PrunedDirectoryContributesNoOwnFile` |
| Partitioning.ClassifySucceeds | rasa/data.py:106-114 | classifying the walk succeeds exactly when no considered file's sniff raises |
| Partitioning.ClassifyFirstError | rasa/data.py:106-114 | a failure carries the error of the first considered file, in walk order, whose sniff raises |
| Partitioning.ClassifySets | rasa/data.py:106-114 | on success, the NLU set is exactly the considered paths sniffed as NLU and the story set exactly those sniffed as Core |
| Partitioning.RootPaths | rasa/data.py:75-80 | chooses the roots to scan: a non-empty selector's training paths, else the caller's path or list; its effect is stated by `SelectorOverridesRoots` and `OneRootIsSingletonList` |
| Partitioning.CollectRoots | rasa/data.py:82-93 | the loop over the roots: skips empty entries, stops at the first scan that raises, and otherwise unions the scans' sets; see `CollectRootsSucceeds`, `CollectRootsFirstError`, `CollectRootsUnion` and `CollectRootsSound` |
| Partitioning.GetCoreNluFiles | rasa/data.py:69-93 | `_get_core_nlu_files`: a missing selector is the empty one, the roots are chosen by `RootPaths`, and the chosen roots are collected; see `SelectorOverridesRoots`, `OneRootIsSingletonList`, `NoSelectorImportsEverything`, `EmptyRootsAreSkipped` and `PartitionIsDisjoint` |
| Partitioning.CollectRootsSucceeds | rasa/data.py:82-93 | collecting succeeds exactly when every non-empty root's scan succeeds |
| Partitioning.CollectRootsFirstError | rasa/data.py:82-93 | a failure carries the error of the first root whose scan fails, and all earlier roots succeeded |
| Partitioning.CollectRootsUnion | rasa/data.py:82-93 | on success each result set is the union of that set over all roots |
| Partitioning.EmptyRootsAreSkipped | rasa/data.py:82-84 | dropping empty root entries changes nothing |
| Partitioning.WithoutEmpty | rasa/data.py:83-84 | keeps exactly the non-empty entries of a root list |
| Partitioning.SelectorOverridesRoots | rasa/data.py:77-78 | with a non-empty selector the caller's directories do not matter |
| Partitioning.OneRootIsSingletonList | rasa/data.py:79-80 | a single path behaves as a one-element list |
| Partitioning.NoSelectorImportsEverything | rasa/data.py:75 | passing no selector is passing the empty one |
| Partitioning.FindInDirectorySound | rasa/data.py:96-116 | every path one directory's scan reports names a `.json` or `.md` file sniffed as the side it is on |
| Partitioning.WalkEntriesClassified | rasa/data.py:106-114 | a walked file sorted to one side names, under its reported path, a `.json`/`.md` file sniffed as that side |
| Partitioning.CollectRootsSound | rasa/data.py:82-93 | the same holds for the union over all roots |
| Partitioning.PartitionIsDisjoint | rasa/data.py:69-116 | the two result sets are disjoint and hold only paths of `.json`/`.md` files sniffed as their side |
| Partitioning.OtherExtensionNeverReported | rasa/data.py:107-108 | a file with neither extension lands in neither set |
| Partitioning.ImportedFileIsPartitioned | rasa/data.py:102-114 | each `.json`/`.md` file in a directory reached under an imported path lands in exactly one set, the one its sniff names |
| Partitioning.PrunedDirectoryContributesNoOwnFile | rasa/data.py:102-104 | whatever their content, the own files of any directory under a root that the selector does not import are in neither set |
| Staging.StagedName | rasa/data.py:151-152 | the name a copy gets: the token, `_`, then the source's basename; see `StagedNameParts`, `StagedNamesDistinct` and `NamedByTokensHasShape` |
| Staging.StageNextPrefix | rasa/data.py:149-152 | staging one more file with the next fresh token keeps every generated prefix in the directory distinct |
| Staging.StagedNameParts | rasa/data.py:151-152 | a staged name is the token, then `_`, then the source's basename |
| Staging.StagedNamesDistinct | rasa/data.py:150-152 | two different tokens of one length give different staged names, even for equal basenames |
| Staging.ValuesOfFreshUpdate | rasa/data.py:153 | copying a file under a name not yet taken adds exactly that file to the directory's contents |
| Staging.StageNext | rasa/data.py:150-153 | with fresh tokens, the next staged name is not yet taken |
| Staging.StagingStep | rasa/data.py:149-153 | staging one more file under a free name adds one entry and one file |
| Staging.NamedByTokensHasShape | rasa/data.py:151-152 | every name built from a uuid token is 32 hex digits, `_` and the source's basename |
| Staging.StageAll | rasa/data.py:149-153 | after the loop every file is staged, under one of the drawn tokens, and no two entries share a generated prefix |
| Staging.CopyFilesToNewDir | rasa/data.py:147-155 | the staging directory holds every file exactly once (as many entries as files), each under the name token + `_` + basename, with no two entries sharing the 32-character generated prefix; an empty set gives an empty directory |
| Staging.DropFresh | rasa/data.py:151 | the tokens left after the first `n` are drawn are still fresh |
| Data.GetCoreDirectory | rasa/data.py:15-28 | fails exactly when the scan fails, with its error; otherwise stages exactly the story files, one entry each, under uuid-shaped staged names, no two sharing a generated prefix |
| Data.GetNluDirectory | rasa/data.py:31-44 | fails exactly when the scan fails, with its error; otherwise stages exactly the NLU files, one entry each, under uuid-shaped staged names, no two sharing a generated prefix |
| Data.GetCoreNluDirectories | rasa/data.py:47-66 | one scan; fails exactly when it fails; otherwise stages exactly the story files and exactly the NLU files, one entry each, as the two single entry points do, with distinct generated prefixes inside each directory |
| Data.IsDomainFile | rasa/data.py:135-138 | `is_domain_file`: the basename is `domain.yml` or `domain.yaml`; see `DomainFileByName` and `DomainAndConfigExclusive` |
| Data.IsConfigFile | rasa/data.py:141-144 | `is_config_file`: the basename is `config.yml` or `config.yaml`; see `ConfigFileByName` and `DomainAndConfigExclusive` |
| Data.DomainFileByName | rasa/data.py:135-138 | a path is a domain file exactly when its file name is `domain.yml` or `domain.yaml`, whatever the directory |
| Data.ConfigFileByName | rasa/data.py:141-144 | a path is a config file exactly when its file name is `config.yml` or `config.yaml`, whatever the directory |
| Data.DomainAndConfigExclusive | rasa/data.py:135-144 | no path is both a domain file and a config file |
| Data.ScenarioIsPartitioned | rasa/data.py:69-116 | in a project with `data/stories.md` and `data/nlu.md`, scanning `data` puts the first in the story set and the second in the NLU set |
| Data.ScenarioResolves | rasa/data.py:102 | in that project, `data` names the project's only subdirectory |
| Data.ScenarioWalk | rasa/data.py:102-110 | in that project, the walk of `data` reports `data/stories.md`, then `data/nlu.md` |
| Data.OneRootScansThatDirectory | rasa/data.py:79-93 | without a selector, a single root naming a directory yields exactly that directory's classification, its error included |
| Data.FlatWalk | rasa/data.py:102 | a directory without subdirectories walks to exactly its own files |
| Data.ClassifyCoreThenNlu | rasa/data.py:106-114 | a Core file followed by an NLU file gives one path in each set |
| Data.ScenarioStoryIsCore | rasa/data.py:124-125 | the example's story file is Core data |
| Data.ScenarioNluIsNlu | rasa/data.py:124-125 | the example's NLU file is NLU data |
| Data.StoryLinesDoNotMatch | rasa/data.py:125 | no line of the example's story file is a header |
| Data.StoriesPath | rasa/data.py:110 | `data` joined with `stories.md` is `data/stories.md` |
| Data.NluPath | rasa/data.py:110 | `data` joined with `nlu.md` is `data/nlu.md` |

## Left out

- File-system I/O: `os.walk`, `open`, `tempfile.mkdtemp` and `shutil.copy2` are
  not performed. The tree is a value, and a staging directory is its listing.
  Where the temporary directory lives, and the file metadata `copy2` keeps,
  are not modelled.
- The order in which `os.walk` lists a directory is taken to be the tree's
  listing order. Only the first error depends on it; the result sets do not.
- Symbolic links, `..` components and any difference between absolute and
  relative roots are not modelled. Every path resolves against one tree, and
  a path that names nothing makes the walk report nothing.
- JSON parsing is not modelled. A file body carries its parsed document, or
  none when the text does not parse.
- UTF-8 decoding errors from `open(..., encoding="utf-8")` are not modelled.
  Line splitting is also not modelled: a body's lines are given with their
  line terminators.
- `uuid.uuid4()` is not modelled. Its results are a sequence of tokens passed
  in, assumed to be 32 lower-case hex digits, pairwise distinct, and at least
  as many as the files to stage. The chance of a repeat is not modelled.
- `SkillSelector` (in `rasa/multi_skill`) is not part of this model. It is an
  abstract record: an emptiness flag, the training paths, and an import
  predicate on directory paths. A passed selector is taken to be truthy in
  `skill_imports or SkillSelector.empty()`.
- Root entries are strings. A `None` inside a list of roots is not modelled.
- Logging is not modelled.
- `rasa/nlu/constants.py` is not part of this model. It holds only string
  constants, and `rasa/data.py` does not use them.

=== FILE: classifier.dfy ===
/** `_is_nlu_file`: decides from a file's content whether it holds NLU
    training data or Core (story) data. A `.json` path is sniffed through
    its parsed document, any other path line by line. */
module Classifier {
  import opened Results
  import opened JsonValues
  import opened FileTree
  import opened NluPattern

  /** The top-level key that marks a JSON document as NLU data. */
  const NluDataKey: string := "rasa_nlu_data"

  /** The exceptions the sniff lets escape: `json.loads` rejecting the text,
      and `.get` on a top level that is not an object (`AttributeError`). */
  datatype Error = JsonDecodeError(path: string) | NotAnObject(path: string)

  predicate EndsWith(s: string, suffix: string) {
    |suffix| <= |s| && s[|s| - |suffix|..] == suffix
  }

  /** The walk only considers files with these two extensions. */
  predicate IsTrainingDataName(name: string) {
    EndsWith(name, ".json") || EndsWith(name, ".md")
  }

  /** `dict.get(NluDataKey) is not None`: the key is present and its value
      is not `null`; `false`, `{}` and `[]` all pass. */
  predicate HasNluMarker(fields: map<string, Json>) {
    NluDataKey in fields && fields[NluDataKey] != Null
  }

  /** `any(_contains_nlu_pattern(l) for l in lines)`. */
  function AnyLineMatches(lines: seq<string>): (b: bool)
    ensures b <==> exists k :: 0 <= k < |lines| && NluHeader(lines[k])
  {
    if lines == [] then false
    else if ContainsNluPattern(lines[0]) then true
    else
      var b := AnyLineMatches(lines[1..]);
      assert (exists k :: 0 <= k < |lines| && NluHeader(lines[k]))
         <==> (exists k :: 0 <= k < |lines[1..]| && NluHeader(lines[1..][k])) by {
        if exists k :: 0 <= k < |lines| && NluHeader(lines[k]) {
          var k :| 0 <= k < |lines| && NluHeader(lines[k]);
          assert k != 0;
          assert lines[1..][k - 1] == lines[k];
        }
        if exists k :: 0 <= k < |lines[1..]| && NluHeader(lines[1..][k]) {
          var k :| 0 <= k < |lines[1..]| && NluHeader(lines[1..][k]);
          assert lines[k + 1] == lines[1..][k];
        }
      }
      b
  }

  /** `_is_nlu_file(path)` for a file whose content is `body`. */
  function IsNluFile(path: string, body: FileBody): (r: Result<bool, Error>)
    ensures r.Err? <==> EndsWith(path, ".json") && (body.parsed.None? || !body.parsed.value.Object?)
    ensures r.Err? ==> r.error.path == path
    ensures r.Err? && body.parsed.None? ==> r.error.JsonDecodeError?
    ensures r.Err? && body.parsed.Some? ==> r.error.NotAnObject?
    ensures r.Ok? && EndsWith(path, ".json") ==> (r.value <==> HasNluMarker(body.parsed.value.fields))
    ensures !EndsWith(path, ".json") ==> r.Ok? && (r.value <==> exists k :: 0 <= k < |body.lines| && NluHeader(body.lines[k]))
  {
    if EndsWith(path, ".json") then
      match body.parsed
      case None => Err(JsonDecodeError(path))
      case Some(Object(fields)) => Ok(HasNluMarker(fields))
      case Some(_) => Err(NotAnObject(path))
    else
      Ok(AnyLineMatches(body.lines))
  }

  /** A Markdown file without lines has no header, so it is Core data. */
  lemma EmptyMarkdownIsCore(path: string)
    requires EndsWith(path, ".md")
    ensures IsNluFile(path, FileBody([], None)) == Ok(false)
  {
    MarkdownIsNotJson(path);
  }

  lemma MarkdownIsNotJson(name: string)
    requires EndsWith(name, ".md")
    ensures !EndsWith(name, ".json")
  {
    assert name[|name| - 1] == ".md"[2];
  }

  /** The marker only has to be non-null: `false` still makes NLU data,
      while an explicit `null` or an absent key does not. */
  lemma MarkerValueOnlyNeedsToBeNonNull(path: string, lines: seq<string>)
    requires EndsWith(path, ".json")
    ensures IsNluFile(path, FileBody(lines, Some(Object(map[NluDataKey := Bool(false)])))) == Ok(true)
    ensures IsNluFile(path, FileBody(lines, Some(Object(map[NluDataKey := Object(map[])])))) == Ok(true)
    ensures IsNluFile(path, FileBody(lines, Some(Object(map[NluDataKey := Null])))) == Ok(false)
    ensures IsNluFile(path, FileBody(lines, Some(Object(map[])))) == Ok(false)
  {
  }

  /** A JSON file is never read line by line: headers in its text do not
      matter. */
  lemma JsonIgnoresLines(path: string, lines1: seq<string>, lines2: seq<string>, doc: Option<Json>)
    requires EndsWith(path, ".json")
    ensures IsNluFile(path, FileBody(lines1, doc)) == IsNluFile(path, FileBody(lines2, doc))
  {
  }

  /** A file with a header line is NLU data unless it is a JSON file. */
  lemma MarkdownHeaderMakesNlu(path: string, body: FileBody, k: nat)
    requires !EndsWith(path, ".json")
    requires k < |body.lines| && ContainsNluPattern(body.lines[k])
    ensures IsNluFile(path, body) == Ok(true)
  {
  }
}

=== FILE: data.dfy ===
/** The public surface of the training-data loader: the three entry points
    that stage Core and NLU files, and the two filename checks. */
module Data {
  import opened Results
  import opened Paths
  import opened FileTree
  import opened Classifier
  import opened Walker
  import opened Partitioning
  import opened Staging
  import opened NluPattern

  /** `get_core_directory`: stages the Core (story) files. */
  method GetCoreDirectory(root: Dir, directories: Roots, selector: Option<Selector>, tokens: seq<string>)
    returns (r: Result<StagingDir, Error>)
    requires FreshTokens(tokens)
    requires GetCoreNluFiles(root, directories, selector).Ok? ==>
               |GetCoreNluFiles(root, directories, selector).value.stories| <= |tokens|
    ensures r.Ok? <==> GetCoreNluFiles(root, directories, selector).Ok?
    ensures r.Err? ==> r.error == GetCoreNluFiles(root, directories, selector).error
    ensures r.Ok? ==> r.value.Values == GetCoreNluFiles(root, directories, selector).value.stories
    ensures r.Ok? ==> |r.value| == |GetCoreNluFiles(root, directories, selector).value.stories|
    ensures r.Ok? ==> forall name :: name in r.value ==> StagedShape(name, r.value[name])
    ensures r.Ok? ==> DistinctPrefixes(r.value)
  {
    match GetCoreNluFiles(root, directories, selector)
    case Err(e) => r := Err(e);
    case Ok(p) =>
      var dir := CopyFilesToNewDir(p.stories, tokens);
      r := Ok(dir);
  }

  /** `get_nlu_directory`: stages the NLU files. */
  method GetNluDirectory(root: Dir, directories: Roots, selector: Option<Selector>, tokens: seq<string>)
    returns (r: Result<StagingDir, Error>)
    requires FreshTokens(tokens)
    requires GetCoreNluFiles(root, directories, selector).Ok? ==>
               |GetCoreNluFiles(root, directories, selector).value.nlu| <= |tokens|
    ensures r.Ok? <==> GetCoreNluFiles(root, directories, selector).Ok?
    ensures r.Err? ==> r.error == GetCoreNluFiles(root, directories, selector).error
    ensures r.Ok? ==> r.value.Values == GetCoreNluFiles(root, directories, selector).value.nlu
    ensures r.Ok? ==> |r.value| == |GetCoreNluFiles(root, directories, selector).value.nlu|
    ensures r.Ok? ==> forall name :: name in r.value ==> StagedShape(name, r.value[name])
    ensures r.Ok? ==> DistinctPrefixes(r.value)
  {
    match GetCoreNluFiles(root, directories, selector)
    case Err(e) => r := Err(e);
    case Ok(p) =>
      var dir := CopyFilesToNewDir(p.nlu, tokens);
      r := Ok(dir);
  }

  /** `get_core_nlu_directories`: one scan, then two staging directories,
      holding exactly what the two single entry points stage. The NLU
      copies draw the tokens after those the Core copies used. */
  method GetCoreNluDirectories(root: Dir, directories: Roots, selector: Option<Selector>, tokens: seq<string>)
    returns (r: Result<(StagingDir, StagingDir), Error>)
    requires FreshTokens(tokens)
    requires GetCoreNluFiles(root, directories, selector).Ok? ==>
               |GetCoreNluFiles(root, directories, selector).value.stories|
               + |GetCoreNluFiles(root, directories, selector).value.nlu| <= |tokens|
    ensures r.Ok? <==> GetCoreNluFiles(root, directories, selector).Ok?
    ensures r.Err? ==> r.error == GetCoreNluFiles(root, directories, selector).error
    ensures r.Ok? ==> r.value.0.Values == GetCoreNluFiles(root, directories, selector).value.stories
    ensures r.Ok? ==> r.value.1.Values == GetCoreNluFiles(root, directories, selector).value.nlu
    ensures r.Ok? ==> |r.value.0| == |GetCoreNluFiles(root, directories, selector).value.stories|
    ensures r.Ok? ==> |r.value.1| == |GetCoreNluFiles(root, directories, selector).value.nlu|
    ensures r.Ok? ==> forall name :: name in r.value.0 ==> StagedShape(name, r.value.0[name])
    ensures r.Ok? ==> forall name :: name in r.value.1 ==> StagedShape(name, r.value.1[name])
    ensures r.Ok? ==> DistinctPrefixes(r.value.0) && DistinctPrefixes(r.value.1)
  {
    match GetCoreNluFiles(root, directories, selector)
    case Err(e) => r := Err(e);
    case Ok(p) =>
      var storyDir := CopyFilesToNewDir(p.stories, tokens);
      DropFresh(tokens, |p.stories|);
      var nluDir := CopyFilesToNewDir(p.nlu, tokens[|p.stories|..]);
      r := Ok((storyDir, nluDir));
  }

  /** `is_domain_file`. */
  predicate IsDomainFile(path: string) {
    Basename(path) in ["domain.yml", "domain.yaml"]
  }

  /** `is_config_file`. */
  predicate IsConfigFile(path: string) {
    Basename(path) in ["config.yml", "config.yaml"]
  }

  /** Only the file name decides: the directory part of the path does not
      matter. */
  lemma DomainFileByName(dir: string, name: string)
    requires ValidName(name)
    ensures IsDomainFile(Join(dir, name)) <==> name == "domain.yml" || name == "domain.yaml"
  {
    BasenameJoin(dir, name);
  }

  /** Only the file name decides: the directory part of the path does not
      matter. */
  lemma ConfigFileByName(dir: string, name: string)
    requires ValidName(name)
    ensures IsConfigFile(Join(dir, name)) <==> name == "config.yml" || name == "config.yaml"
  {
    BasenameJoin(dir, name);
  }

  /** No path is both a domain file and a config file. */
  lemma DomainAndConfigExclusive(path: string)
    ensures !(IsDomainFile(path) && IsConfigFile(path))
  {
  }

  /** A project directory `data` with one story file and one NLU file. */
  function ScenarioTree(): Dir {
    Dir("", [], [Dir("data", [
      File("stories.md", FileBody(["## story: test\n", "* greet\n", "  - utter_greet\n"], None)),
      File("nlu.md", FileBody(["## intent:greet\n", "- hi\n", "- hello\n"], None))
    ], [])])
  }

  /** Scanning `data` without a selector puts the story file on the Core
      side and the NLU file on the NLU side. */
  lemma ScenarioIsPartitioned(root: Dir)
    requires root == ScenarioTree()
    ensures GetCoreNluFiles(root, OneRoot("data"), None)
         == Ok(Partition({"data/stories.md"}, {"data/nlu.md"}))
  {
    var d := root.subdirs[0];
    ScenarioResolves(root);
    var es := ScenarioWalk(d);
    ScenarioStoryIsCore(es[0]);
    ScenarioNluIsNlu(es[1]);
    ClassifyCoreThenNlu(es[0], es[1]);
    assert es == [es[0], es[1]];
    OneRootScansThatDirectory(root, "data", d);
  }

  /** The path `data` names the project's only subdirectory. */
  lemma ScenarioResolves(root: Dir)
    requires root == ScenarioTree()
    ensures Resolve(root, "data") == Some(DirNode(root.subdirs[0]))
  {
    assert Components("data") == ["data"];
  }

  /** The walk of `data` reports the story file, then the NLU file. */
  lemma ScenarioWalk(d: Dir) returns (es: seq<Entry>)
    requires d == ScenarioTree().subdirs[0]
    ensures es == WalkDir("data", d, EmptySelector())
    ensures es == [Entry("data", "data/stories.md", d.files[0]),
                   Entry("data", "data/nlu.md", d.files[1])]
  {
    FlatWalk("data", d);
    es := WalkDir("data", d, EmptySelector());
    StoriesPath();
    NluPath();
  }

  lemma StoriesPath()
    ensures Join("data", "stories.md") == "data/stories.md"
  {
  }

  lemma NluPath()
    ensures Join("data", "nlu.md") == "data/nlu.md"
  {
  }

  /** Without a selector, a single non-empty root that names a directory
      yields exactly that directory's classification. */
  lemma OneRootScansThatDirectory(root: Dir, top: string, d: Dir)
    requires top != "" && Resolve(root, top) == Some(DirNode(d))
    ensures GetCoreNluFiles(root, OneRoot(top), None) == Classify(WalkDir(top, d, EmptySelector()))
  {
    var sel := EmptySelector();
    assert RootPaths(OneRoot(top), sel) == [top];
    assert [top][1..] == [];
    assert CollectRoots(root, [], sel) == Ok(NoFiles);
    match Classify(WalkDir(top, d, sel))
    case Err(err) =>
      assert FindInDirectory(root, top, sel) == Err(err);
      assert CollectRoots(root, [top], sel) == Err(err);
    case Ok(p) =>
      assert FindInDirectory(root, top, sel) == Ok(p);
      assert p.stories + {} == p.stories && p.nlu + {} == p.nlu;
      assert CollectRoots(root, [top], sel) == Ok(p);
  }

  /** A directory without subdirectories walks to exactly its own files. */
  lemma FlatWalk(top: string, d: Dir)
    requires d.subdirs == []
    ensures WalkDir(top, d, EmptySelector()) == ListFiles(top, d.files)
  {
  }

  /** A Core file followed by an NLU file lands one on each side. */
  lemma ClassifyCoreThenNlu(core: Entry, nlu: Entry)
    requires SortedAs(core, false) && SortedAs(nlu, true)
    ensures Classify([core, nlu]) == Ok(Partition({core.path}, {nlu.path}))
  {
    assert [core, nlu][1..] == [nlu];
    assert [nlu][1..] == [];
    assert Classify([nlu][1..]) == Ok(NoFiles);
    assert NoFiles.nlu + {nlu.path} == {nlu.path};
    assert Classify([nlu]) == Ok(Partition({}, {nlu.path}));
    assert {} + {core.path} == {core.path};
  }

  lemma ScenarioStoryIsCore(e: Entry)
    requires e == Entry("data", "data/stories.md", ScenarioTree().subdirs[0].files[0])
    ensures SortedAs(e, false)
  {
    MarkdownIsNotJson(e.path);
    StoryLinesDoNotMatch(e.file.body.lines);
  }

  lemma ScenarioNluIsNlu(e: Entry)
    requires e == Entry("data", "data/nlu.md", ScenarioTree().subdirs[0].files[1])
    ensures SortedAs(e, true)
  {
    MarkdownIsNotJson(e.path);
    IntentHeaderMatches("\n");
    assert e.file.body.lines[0] == "## intent:greet" + "\n";
  }

  lemma StoryLinesDoNotMatch(lines: seq<string>)
    requires lines == ["## story: test\n", "* greet\n", "  - utter_greet\n"]
    ensures !AnyLineMatches(lines)
  {
    StoryHeaderDoesNotMatch("\n");
    assert lines[0] == "## story: test" + "\n";
    NoHashNoMatch(lines[1], 0);
    assert lines[2][..2] == "  ";
    NoHashNoMatch(lines[2], 2);
    assert lines[1..][1..][1..] == [];
  }
}

=== FILE: filetree.dfy ===
/** The filesystem as one immutable tree. A path names the node reached by
    following its components from the root of the tree; a file carries both
    views of its bytes that the loader reads: its text lines (as iterating
    an open text file yields them, line ends included) and the outcome of
    parsing the whole text as JSON (`None` when parsing fails). */
module FileTree {
  import opened Results
  import opened JsonValues
  import opened Paths

  datatype FileBody = FileBody(lines: seq<string>, parsed: Option<Json>)

  datatype File = File(name: string, body: FileBody)

  datatype Dir = Dir(name: string, files: seq<File>, subdirs: seq<Dir>)

  datatype Node = FileNode(file: File) | DirNode(dir: Dir)

  /** Names inside one directory are valid and unique, as any real
      filesystem guarantees, and so is every subdirectory. */
  predicate WellFormed(d: Dir)
    decreases d
  {
    && (forall k :: 0 <= k < |d.files| ==> ValidName(d.files[k].name))
    && (forall k :: 0 <= k < |d.subdirs| ==> ValidName(d.subdirs[k].name))
    && (forall a, b :: 0 <= a < b < |d.files| ==> d.files[a].name != d.files[b].name)
    && (forall a, b :: 0 <= a < b < |d.subdirs| ==> d.subdirs[a].name != d.subdirs[b].name)
    && (forall a, b :: 0 <= a < |d.files| && 0 <= b < |d.subdirs| ==> d.files[a].name != d.subdirs[b].name)
    && (forall k :: 0 <= k < |d.subdirs| ==> WellFormed(d.subdirs[k]))
  }

  /** The first element of `xs` whose name, as `nameOf` reads it, is `n`. */
  function FindNamed<T>(xs: seq<T>, nameOf: T -> string, n: string): (r: Option<T>)
    ensures r.Some? ==> exists k :: 0 <= k < |xs| && xs[k] == r.value && nameOf(r.value) == n
    ensures r.None? ==> forall k :: 0 <= k < |xs| ==> nameOf(xs[k]) != n
  {
    if xs == [] then None
    else if nameOf(xs[0]) == n then Some(xs[0])
    else
      var r := FindNamed(xs[1..], nameOf, n);
      assert r.Some? ==> exists k :: 0 <= k < |xs| && xs[k] == r.value by {
        if r.Some? {
          var k :| 0 <= k < |xs[1..]| && xs[1..][k] == r.value;
          assert xs[k + 1] == r.value;
        }
      }
      r
  }

  function FileName(f: File): string { f.name }

  function DirName(d: Dir): string { d.name }

  /** The entry of `d` called `n`, if any. */
  function Child(d: Dir, n: string): Option<Node> {
    match FindNamed(d.files, FileName, n)
    case Some(f) => Some(FileNode(f))
    case None =>
      match FindNamed(d.subdirs, DirName, n)
      case Some(s) => Some(DirNode(s))
      case None => None
  }

  /** The node reached from `d` by following `names`; a file cannot be
      descended into. */
  function Lookup(d: Dir, names: seq<string>): Option<Node>
    decreases |names|
  {
    if names == [] then Some(DirNode(d))
    else
      match Child(d, names[0])
      case Some(DirNode(s)) => Lookup(s, names[1..])
      case Some(FileNode(f)) => if |names| == 1 then Some(FileNode(f)) else None
      case None => None
  }

  /** The node a path string names in the tree rooted at `root`. */
  function Resolve(root: Dir, path: string): Option<Node> {
    Lookup(root, Components(path))
  }

  /** Looking up one more name continues from where the shorter lookup
      stopped. */
  lemma {:induction false} LookupAppend(d: Dir, names: seq<string>, n: string)
    ensures Lookup(d, names + [n])
         == (match Lookup(d, names)
             case Some(DirNode(x)) => Child(x, n)
             case _ => None)
    decreases |names|
  {
    if names == [] {
      assert [] + [n] == [n];
      assert [n][1..] == [];
    } else {
      assert (names + [n])[0] == names[0];
      assert (names + [n])[1..] == names[1..] + [n];
      match Child(d, names[0])
      case Some(DirNode(s)) => LookupAppend(s, names[1..], n);
      case Some(FileNode(f)) =>
      case None =>
    }
  }

  /** Every directory reached in a well-formed tree is well-formed. */
  lemma {:induction false} LookupWellFormed(d: Dir, names: seq<string>)
    requires WellFormed(d)
    ensures match Lookup(d, names) case Some(DirNode(x)) => WellFormed(x) case _ => true
    decreases |names|
  {
    if names != [] {
      match Child(d, names[0])
      case Some(DirNode(s)) =>
        var k :| 0 <= k < |d.subdirs| && d.subdirs[k] == s;
        LookupWellFormed(s, names[1..]);
      case Some(FileNode(f)) =>
      case None =>
    }
  }

  /** Every name a successful lookup follows in a well-formed tree is a
      valid name. */
  lemma {:induction false} LookupNamesValid(d: Dir, names: seq<string>)
    requires WellFormed(d) && Lookup(d, names).Some?
    ensures ValidNames(names)
    decreases |names|
  {
    if names != [] {
      ChildNameValid(d, names[0]);
      match Child(d, names[0])
      case Some(DirNode(s)) =>
        var k :| 0 <= k < |d.subdirs| && d.subdirs[k] == s;
        LookupNamesValid(s, names[1..]);
        forall j | 0 <= j < |names|
          ensures ValidName(names[j])
        {
          if j > 0 {
            assert names[j] == names[1..][j - 1];
          }
        }
      case Some(FileNode(f)) =>
    }
  }

  /** A name that finds an entry of a well-formed directory is valid. */
  lemma ChildNameValid(d: Dir, n: string)
    requires WellFormed(d) && Child(d, n).Some?
    ensures ValidName(n)
  {
    match FindNamed(d.files, FileName, n)
    case Some(f) =>
      var k :| 0 <= k < |d.files| && d.files[k] == f && FileName(f) == n;
    case None =>
      var s := FindNamed(d.subdirs, DirName, n).value;
      var k :| 0 <= k < |d.subdirs| && d.subdirs[k] == s && DirName(s) == n;
  }

  /** In a well-formed directory a file's own name leads back to it. */
  lemma ChildFile(d: Dir, k: nat)
    requires WellFormed(d) && k < |d.files|
    ensures Child(d, d.files[k].name) == Some(FileNode(d.files[k]))
  {
    var r := FindNamed(d.files, FileName, d.files[k].name);
    var j :| 0 <= j < |d.files| && d.files[j] == r.value;
    assert j == k by {
      if j < k {} else if j > k {}
    }
  }

  /** In a well-formed directory a subdirectory's own name leads back to it. */
  lemma ChildDir(d: Dir, k: nat)
    requires WellFormed(d) && k < |d.subdirs|
    ensures Child(d, d.subdirs[k].name) == Some(DirNode(d.subdirs[k]))
  {
    var n := d.subdirs[k].name;
    assert FindNamed(d.files, FileName, n).None?;
    var r := FindNamed(d.subdirs, DirName, n);
    var j :| 0 <= j < |d.subdirs| && d.subdirs[j] == r.value;
    assert j == k by {
      if j < k {} else if j > k {}
    }
  }
}

=== FILE: json.dfy ===
/** The value `json.loads` produces: the classifier only ever looks at the
    top level of it. */
module JsonValues {

  datatype Json =
    | Null
    | Bool(b: bool)
    | Number(literal: string)
    | String(s: string)
    | Array(items: seq<Json>)
    | Object(fields: map<string, Json>)
}

=== FILE: nlupattern.dfy ===
/** The line sniff that recognises a Markdown NLU section header: the
    pattern `\s*##\s*(intent|regex||synonym|lookup):` applied with
    `re.match`, i.e. anchored at the start of the line and satisfied by a
    prefix. The pattern is matched by hand here, and proved equal to a
    declarative reading of it. */
module NluPattern {

  /** The alternatives of the keyword group, in the order the pattern lists
      them; the empty alternative comes from the `||` in the pattern. */
  const Keywords: seq<string> := ["intent", "regex", "", "synonym", "lookup"]

  /** Python's `\s` on `str` patterns: the characters `str.isspace` accepts. */
  predicate IsWhitespace(c: char) {
    var n := c as int;
    || 0x09 <= n <= 0x0D
    || 0x1C <= n <= 0x20
    || n == 0x85 || n == 0xA0 || n == 0x1680
    || 0x2000 <= n <= 0x200A
    || n == 0x2028 || n == 0x2029 || n == 0x202F || n == 0x205F || n == 0x3000
  }

  predicate AllWhitespace(s: string) {
    forall k :: 0 <= k < |s| ==> IsWhitespace(s[k])
  }

  predicate StartsWith(s: string, prefix: string) {
    |prefix| <= |s| && s[..|prefix|] == prefix
  }

  /** `s` begins with one of the keyword alternatives followed at once by
      a colon. */
  predicate KeywordColon(s: string) {
    exists k :: 0 <= k < |Keywords| && StartsWith(s, Keywords[k] + ":")
  }

  /** The pattern matches `line` with the leading `\s*` covering
      `line[..i]`, `##` at `i`, and the second `\s*` covering
      `line[i + 2..j]`. */
  ghost predicate HeaderAt(line: string, i: int, j: int) {
    && 0 <= i && i + 2 <= j <= |line|
    && AllWhitespace(line[..i])
    && line[i..i + 2] == "##"
    && AllWhitespace(line[i + 2..j])
    && KeywordColon(line[j..])
  }

  /** The declarative reading of the pattern: some split of a prefix of the
      line fits it. */
  ghost predicate NluHeader(line: string) {
    exists i, j :: HeaderAt(line, i, j)
  }

  /** The first position at or after `from` that is not whitespace. */
  function SkipWhitespace(s: string, from: nat): (j: nat)
    requires from <= |s|
    ensures from <= j <= |s|
    ensures AllWhitespace(s[from..j])
    ensures j == |s| || !IsWhitespace(s[j])
    decreases |s| - from
  {
    if from < |s| && IsWhitespace(s[from]) then
      var j := SkipWhitespace(s, from + 1);
      assert s[from..j] == [s[from]] + s[from + 1..j];
      j
    else from
  }

  /** `_contains_nlu_pattern`: skip whitespace, expect `##`, skip
      whitespace, expect a keyword and a colon. */
  function ContainsNluPattern(line: string): (b: bool)
    ensures b <==> NluHeader(line)
  {
    var i := SkipWhitespace(line, 0);
    if StartsWith(line[i..], "##") then
      var j := SkipWhitespace(line, i + 2);
      MatcherSound(line, i, j);
      MatcherComplete(line, i, j);
      KeywordColon(line[j..])
    else
      MatcherFindsNoHashes(line, i);
      false
  }

  lemma MatcherSound(line: string, i: nat, j: nat)
    requires i + 2 <= j <= |line|
    requires i == SkipWhitespace(line, 0) && StartsWith(line[i..], "##")
    requires j == SkipWhitespace(line, i + 2)
    ensures KeywordColon(line[j..]) ==> HeaderAt(line, i, j)
  {
    assert line[..i] == line[0..i];
    assert line[i..][..2] == line[i..i + 2];
  }

  /** Any split that fits the pattern is the one the matcher finds. */
  lemma MatcherComplete(line: string, i: nat, j: nat)
    requires i + 2 <= j <= |line|
    requires i == SkipWhitespace(line, 0) && StartsWith(line[i..], "##")
    requires j == SkipWhitespace(line, i + 2)
    ensures NluHeader(line) ==> KeywordColon(line[j..])
  {
    if NluHeader(line) {
      var i', j' :| HeaderAt(line, i', j');
      assert line[0..i'] == line[..i'];
      FirstNonWhitespace(line, 0, i');
      KeywordColonStartsSolid(line[j'..]);
      FirstNonWhitespace(line, i + 2, j');
    }
  }

  /** Without `##` after the leading whitespace nothing fits. */
  lemma MatcherFindsNoHashes(line: string, i: nat)
    requires i == SkipWhitespace(line, 0) && !StartsWith(line[i..], "##")
    ensures !NluHeader(line)
  {
    if NluHeader(line) {
      var i', j' :| HeaderAt(line, i', j');
      FirstNonWhitespace(line, 0, i');
    }
  }

  /** A keyword followed by a colon starts with a character that is not
      whitespace, so the second `\s*` cannot stop early. */
  lemma KeywordColonStartsSolid(s: string)
    requires KeywordColon(s)
    ensures |s| > 0 && !IsWhitespace(s[0])
  {
    var k :| 0 <= k < |Keywords| && StartsWith(s, Keywords[k] + ":");
    assert s[0] == (Keywords[k] + ":")[0];
  }

  /** The first non-whitespace position after a run of whitespace is
      where `SkipWhitespace` stops. */
  lemma FirstNonWhitespace(s: string, from: nat, t: nat)
    requires from <= t < |s|
    requires AllWhitespace(s[from..t]) && !IsWhitespace(s[t])
    ensures SkipWhitespace(s, from) == t
  {
  }

  /** The match only needs a prefix, so extending a matching line keeps it
      matching. */
  lemma ExtendedLineStillMatches(line: string, suffix: string)
    requires ContainsNluPattern(line)
    ensures ContainsNluPattern(line + suffix)
  {
    var i, j :| HeaderAt(line, i, j);
    var l := line + suffix;
    assert l[..i] == line[..i];
    assert l[i..i + 2] == line[i..i + 2];
    assert l[i + 2..j] == line[i + 2..j];
    var k :| 0 <= k < |Keywords| && StartsWith(line[j..], Keywords[k] + ":");
    assert l[j..][..|Keywords[k] + ":"|] == line[j..][..|Keywords[k] + ":"|];
    assert HeaderAt(l, i, j);
  }

  /** Every line of the shape `ws* "##" ws* K ":" rest` matches. */
  lemma HeaderShapeMatches(ws1: string, ws2: string, k: nat, rest: string)
    requires AllWhitespace(ws1) && AllWhitespace(ws2) && k < |Keywords|
    ensures ContainsNluPattern(ws1 + "##" + ws2 + Keywords[k] + ":" + rest)
  {
    var line := ws1 + "##" + ws2 + Keywords[k] + ":" + rest;
    var i, j := |ws1|, |ws1| + 2 + |ws2|;
    assert line[..i] == ws1;
    assert line[i..i + 2] == "##";
    assert line[i + 2..j] == ws2;
    assert line[j..][..|Keywords[k] + ":"|] == Keywords[k] + ":";
    assert HeaderAt(line, i, j);
  }

  /** `## intent:greet` is a section header, whatever follows it. */
  lemma IntentHeaderMatches(suffix: string)
    ensures ContainsNluPattern("## intent:greet" + suffix)
  {
    var line := "## intent:greet" + suffix;
    assert line[..0] == "" && line[0..2] == "##" && line[2..3] == " ";
    assert line[3..][..7] == "intent:";
    assert AllWhitespace(line[2..3]);
    assert HeaderAt(line, 0, 3) by {
      assert StartsWith(line[3..], Keywords[0] + ":");
    }
  }

  /** Leading whitespace and no space after `##` are allowed. */
  lemma IndentedHeaderMatches()
    ensures ContainsNluPattern("  ##intent:x")
  {
    var line := "  ##intent:x";
    assert line[..2] == "  " && line[2..4] == "##" && line[4..4] == "";
    assert line[4..][..7] == "intent:";
    assert AllWhitespace(line[..2]);
    assert HeaderAt(line, 2, 4) by {
      assert StartsWith(line[4..], Keywords[0] + ":");
    }
  }

  /** The empty alternative lets a bare `## :` through. */
  lemma EmptyKeywordHeaderMatches()
    ensures ContainsNluPattern("## :")
  {
    HeaderShapeMatches("", " ", 2, "");
    assert "" + "##" + " " + Keywords[2] + ":" + "" == "## :";
  }

  /** A story header is not an NLU header, whatever follows it. */
  lemma StoryHeaderDoesNotMatch(suffix: string)
    ensures !ContainsNluPattern("## story: test" + suffix)
  {
    var line := "## story: test" + suffix;
    var rest := line[3..];
    assert rest[0] == 's' && rest[1] == 't';
    DiffersAt(rest, "intent:", 0);
    DiffersAt(rest, "regex:", 0);
    DiffersAt(rest, "synonym:", 1);
    DiffersAt(rest, "lookup:", 0);
    NoKeywordColon(rest);
    HashesThenNoKeyword(line);
  }

  /** One `#` is not enough. */
  lemma SingleHashDoesNotMatch(suffix: string)
    ensures !ContainsNluPattern("# intent:" + suffix)
  {
    var line := "# intent:" + suffix;
    FirstNonWhitespace(line, 0, 0);
    DiffersAt(line, "##", 1);
  }

  /** A keyword must be followed at once by its colon: after `## ` and one
      of the four named keywords, any other character rules the line out,
      since no keyword is a prefix of another and the empty alternative
      needs the colon right after the spaces. With `c` a space this says
      that `## intent :` is not a header either. */
  lemma KeywordWithoutColonDoesNotMatch(w: string, c: char, suffix: string)
    requires w in Keywords && w != "" && c != ':'
    ensures !ContainsNluPattern("## " + w + [c] + suffix)
  {
    var line := "## " + w + [c] + suffix;
    var rest := line[3..];
    assert rest == w + [c] + suffix;
    forall k | 0 <= k < |Keywords|
      ensures !StartsWith(rest, Keywords[k] + ":")
    {
      if Keywords[k] == w {
        DiffersAt(rest, w + ":", |w|);
      } else {
        DiffersAt(rest, Keywords[k] + ":", 0);
      }
    }
    HashesThenNoKeyword(line);
  }

  /** A keyword continued into a longer word is not a header:
      `## intentionally: x` never matches. */
  lemma LongerWordDoesNotMatch(suffix: string)
    ensures !ContainsNluPattern("## intentionally: x" + suffix)
  {
    assert "## intentionally: x" + suffix == "## " + "intent" + ['i'] + ("onally: x" + suffix);
    KeywordWithoutColonDoesNotMatch("intent", 'i', "onally: x" + suffix);
  }

  /** A third `#` is neither whitespace nor a keyword. */
  lemma TripleHashDoesNotMatch(suffix: string)
    ensures !ContainsNluPattern("###intent:" + suffix)
  {
    var line := "###intent:" + suffix;
    FirstNonWhitespace(line, 0, 0);
    FirstNonWhitespace(line, 2, 2);
    var rest := line[2..];
    assert rest[0] == '#';
    DiffersAt(rest, "intent:", 0);
    DiffersAt(rest, "regex:", 0);
    DiffersAt(rest, "synonym:", 0);
    DiffersAt(rest, "lookup:", 0);
    NoKeywordColon(rest);
  }

  /** A line whose first non-whitespace character is not `#` never
      matches. */
  lemma NoHashNoMatch(line: string, i: nat)
    requires i < |line| && AllWhitespace(line[..i]) && !IsWhitespace(line[i]) && line[i] != '#'
    ensures !ContainsNluPattern(line)
  {
    FirstNonWhitespace(line, 0, i);
    assert line[..i] == line[0..i];
    DiffersAt(line[i..], "##", 0);
  }

  /** `##` and a space followed by something that is neither whitespace
      nor a keyword with its colon: no match. */
  lemma HashesThenNoKeyword(line: string)
    requires |line| >= 4 && line[0] == '#' && line[1] == '#' && line[2] == ' '
    requires !IsWhitespace(line[3]) && !KeywordColon(line[3..])
    ensures !ContainsNluPattern(line)
  {
    FirstNonWhitespace(line, 0, 0);
    FirstNonWhitespace(line, 2, 3);
  }

  /** An alternative that disagrees with `s` at `d` is not a prefix of it. */
  lemma DiffersAt(s: string, p: string, d: nat)
    requires d < |p| && d < |s| && s[d] != p[d]
    ensures !StartsWith(s, p)
  {
  }

  /** No alternative fits when none of the four keywords followed by a
      colon does and `s` does not open with the colon itself. */
  lemma NoKeywordColon(s: string)
    requires |s| > 0 && s[0] != ':'
    requires !StartsWith(s, "intent:") && !StartsWith(s, "regex:")
    requires !StartsWith(s, "synonym:") && !StartsWith(s, "lookup:")
    ensures !KeywordColon(s)
  {
    assert Keywords[0] + ":" == "intent:";
    assert Keywords[1] + ":" == "regex:";
    assert Keywords[2] + ":" == ":";
    assert Keywords[3] + ":" == "synonym:";
    assert Keywords[4] + ":" == "lookup:";
  }
}

=== FILE: partitioning.dfy ===
/** `_find_core_nlu_files_in_directory` and `_get_core_nlu_files`: walk the
    roots, keep the `.json` and `.md` files, and split them by content into
    Core (story) files and NLU files. */
module Partitioning {
  import opened Results
  import opened Paths
  import opened FileTree
  import opened Classifier
  import opened Walker

  /** The two result sets: `story_files` and `nlu_data_files`. */
  datatype Partition = Partition(stories: set<string>, nlu: set<string>)

  /** The `directories` argument: one path or a list of paths. */
  datatype Roots = OneRoot(path: string) | RootList(paths: seq<string>)

  const NoFiles: Partition := Partition({}, {})

  /** A reported file whose sniff raises. */
  predicate Fails(e: Entry) {
    IsTrainingDataName(e.file.name) && IsNluFile(e.path, e.file.body).Err?
  }

  /** A reported file the sniff puts in the NLU set (`nlu`) or the story
      set (`!nlu`). */
  predicate SortedAs(e: Entry, nlu: bool) {
    IsTrainingDataName(e.file.name) && IsNluFile(e.path, e.file.body) == Ok(nlu)
  }

  /** The loop body of `_find_core_nlu_files_in_directory` over the walk's
      files in order; the first sniff that raises aborts the whole call. */
  function Classify(es: seq<Entry>): Result<Partition, Error>
    decreases |es|
  {
    if es == [] then Ok(NoFiles)
    else
      var e := es[0];
      if !IsTrainingDataName(e.file.name) then Classify(es[1..])
      else
        match IsNluFile(e.path, e.file.body)
        case Err(err) => Err(err)
        case Ok(isNlu) =>
          match Classify(es[1..])
          case Err(err) => Err(err)
          case Ok(p) =>
            if isNlu then Ok(Partition(p.stories, p.nlu + {e.path}))
            else Ok(Partition(p.stories + {e.path}, p.nlu))
  }

  /** Classification succeeds exactly when no considered file's sniff
      raises. */
  lemma {:induction false} ClassifySucceeds(es: seq<Entry>)
    ensures Classify(es).Ok? <==> forall k :: 0 <= k < |es| ==> !Fails(es[k])
    decreases |es|
  {
    if es != [] {
      ClassifySucceeds(es[1..]);
      assert forall k :: 0 < k < |es| ==> es[k] == es[1..][k - 1];
    }
  }

  /** When it fails, the error is the one raised by the first failing file. */
  lemma {:induction false} ClassifyFirstError(es: seq<Entry>)
    requires Classify(es).Err?
    ensures exists k :: 0 <= k < |es| && Fails(es[k])
              && Classify(es).error == IsNluFile(es[k].path, es[k].file.body).error
              && forall j :: 0 <= j < k ==> !Fails(es[j])
    decreases |es|
  {
    var err := Classify(es).error;
    if !Fails(es[0]) {
      var tail := es[1..];
      assert Classify(tail) == Err(err);
      ClassifyFirstError(tail);
      var k :| 0 <= k < |tail| && Fails(tail[k])
               && err == IsNluFile(tail[k].path, tail[k].file.body).error
               && forall j :: 0 <= j < k ==> !Fails(tail[j]);
      assert es[k + 1] == tail[k];
      forall j | 0 <= j < k + 1
        ensures !Fails(es[j])
      {
        if j > 0 {
          assert es[j] == tail[j - 1];
        }
      }
    }
  }

  /** On success the NLU set holds exactly the paths of considered files
      the sniff calls NLU, and the story set exactly those it does not. */
  lemma {:induction false} ClassifySets(es: seq<Entry>)
    requires Classify(es).Ok?
    ensures Classify(es).value.nlu == (set e | e in es && SortedAs(e, true) :: e.path)
    ensures Classify(es).value.stories == (set e | e in es && SortedAs(e, false) :: e.path)
    decreases |es|
  {
    if es != [] {
      ClassifySets(es[1..]);
      assert forall x :: x in es <==> x == es[0] || x in es[1..];
    }
  }

  /** `_find_core_nlu_files_in_directory(top, selector)`. A path that names
      no directory makes `os.walk` report nothing. */
  function FindInDirectory(root: Dir, top: string, sel: Selector): Result<Partition, Error> {
    match Resolve(root, top)
    case Some(DirNode(d)) => Classify(WalkDir(top, d, sel))
    case _ => Ok(NoFiles)
  }

  /** The roots `_get_core_nlu_files` scans: a non-empty selector's
      training paths replace the caller's, and a single path becomes a
      one-element list. */
  function RootPaths(directories: Roots, sel: Selector): seq<string> {
    if !sel.isEmpty then sel.trainingPaths
    else match directories
      case OneRoot(p) => [p]
      case RootList(ps) => ps
  }

  /** The loop of `_get_core_nlu_files`: empty roots are skipped, the others
      are scanned in order, the results are united, and the first root
      whose scan raises aborts the call. */
  function CollectRoots(root: Dir, roots: seq<string>, sel: Selector): Result<Partition, Error>
    decreases |roots|
  {
    if roots == [] then Ok(NoFiles)
    else if roots[0] == "" then CollectRoots(root, roots[1..], sel)
    else
      match FindInDirectory(root, roots[0], sel)
      case Err(err) => Err(err)
      case Ok(p) =>
        match CollectRoots(root, roots[1..], sel)
        case Err(err) => Err(err)
        case Ok(q) => Ok(Partition(p.stories + q.stories, p.nlu + q.nlu))
  }

  /** A root's scan when it is run, and nothing for a skipped empty root. */
  function ScanOf(root: Dir, dir: string, sel: Selector): Result<Partition, Error> {
    if dir == "" then Ok(NoFiles) else FindInDirectory(root, dir, sel)
  }

  /** Collecting succeeds exactly when every non-empty root's scan does. */
  lemma {:induction false} CollectRootsSucceeds(root: Dir, roots: seq<string>, sel: Selector)
    ensures CollectRoots(root, roots, sel).Ok? <==> forall k :: 0 <= k < |roots| ==> ScanOf(root, roots[k], sel).Ok?
    decreases |roots|
  {
    if roots != [] {
      CollectRootsSucceeds(root, roots[1..], sel);
      assert forall k :: 0 < k < |roots| ==> roots[k] == roots[1..][k - 1];
    }
  }

  /** When it fails, the error is the first failing root's. */
  lemma {:induction false} CollectRootsFirstError(root: Dir, roots: seq<string>, sel: Selector)
    requires CollectRoots(root, roots, sel).Err?
    ensures exists k :: 0 <= k < |roots| && ScanOf(root, roots[k], sel) == Err(CollectRoots(root, roots, sel).error)
              && forall j :: 0 <= j < k ==> ScanOf(root, roots[j], sel).Ok?
    decreases |roots|
  {
    var err := CollectRoots(root, roots, sel).error;
    if ScanOf(root, roots[0], sel).Err? {
      assert ScanOf(root, roots[0], sel) == Err(err);
    } else {
      var tail := roots[1..];
      assert CollectRoots(root, tail, sel) == Err(err);
      CollectRootsFirstError(root, tail, sel);
      var k :| 0 <= k < |tail| && ScanOf(root, tail[k], sel) == Err(err)
               && forall j :: 0 <= j < k ==> ScanOf(root, tail[j], sel).Ok?;
      assert roots[k + 1] == tail[k];
      forall j | 0 <= j < k + 1
        ensures ScanOf(root, roots[j], sel).Ok?
      {
        if j > 0 {
          assert roots[j] == tail[j - 1];
        }
      }
    }
  }

  /** One of the two sets. */
  function Side(p: Partition, nlu: bool): set<string> {
    if nlu then p.nlu else p.stories
  }

  /** The union of one side over the scans of all roots, each assumed to
      succeed. */
  ghost function UnionOfScans(root: Dir, roots: seq<string>, sel: Selector, nlu: bool): set<string>
    requires forall k :: 0 <= k < |roots| ==> ScanOf(root, roots[k], sel).Ok?
  {
    set k, x | 0 <= k < |roots| && x in Side(ScanOf(root, roots[k], sel).value, nlu) :: x
  }

  /** On success each set is the union of the roots' sets. */
  lemma {:induction false} CollectRootsUnion(root: Dir, roots: seq<string>, sel: Selector, nlu: bool)
    requires CollectRoots(root, roots, sel).Ok?
    ensures forall k :: 0 <= k < |roots| ==> ScanOf(root, roots[k], sel).Ok?
    ensures Side(CollectRoots(root, roots, sel).value, nlu) == UnionOfScans(root, roots, sel, nlu)
    decreases |roots|
  {
    CollectRootsSucceeds(root, roots, sel);
    if roots != [] {
      CollectRootsUnion(root, roots[1..], sel, nlu);
      assert forall k :: 0 < k < |roots| ==> roots[k] == roots[1..][k - 1];
      var all := UnionOfScans(root, roots, sel, nlu);
      var head := Side(ScanOf(root, roots[0], sel).value, nlu);
      var tail := UnionOfScans(root, roots[1..], sel, nlu);
      assert Side(CollectRoots(root, roots, sel).value, nlu) == head + tail;
      forall x | x in all ensures x in head + tail {
        var k :| 0 <= k < |roots| && x in Side(ScanOf(root, roots[k], sel).value, nlu);
        if k > 0 {
          assert x in Side(ScanOf(root, roots[1..][k - 1], sel).value, nlu);
        }
      }
      forall x | x in tail ensures x in all {
        var k :| 0 <= k < |roots[1..]| && x in Side(ScanOf(root, roots[1..][k], sel).value, nlu);
        assert x in Side(ScanOf(root, roots[k + 1], sel).value, nlu);
      }
    }
  }

  /** `_get_core_nlu_files(directories, skill_imports)`; a missing selector
      is the empty one. */
  function GetCoreNluFiles(root: Dir, directories: Roots, selector: Option<Selector>): Result<Partition, Error> {
    var sel := match selector case Some(s) => s case None => EmptySelector();
    CollectRoots(root, RootPaths(directories, sel), sel)
  }

  /** Removes the empty entries of a root list. */
  function WithoutEmpty(roots: seq<string>): (r: seq<string>)
    ensures forall k :: 0 <= k < |r| ==> r[k] != ""
    ensures forall x :: x in r <==> x in roots && x != ""
    ensures |r| <= |roots|
  {
    if roots == [] then []
    else if roots[0] == "" then WithoutEmpty(roots[1..])
    else [roots[0]] + WithoutEmpty(roots[1..])
  }

  /** Empty root entries are skipped: dropping them changes nothing. */
  lemma {:induction false} EmptyRootsAreSkipped(root: Dir, roots: seq<string>, sel: Selector)
    ensures CollectRoots(root, roots, sel) == CollectRoots(root, WithoutEmpty(roots), sel)
    decreases |roots|
  {
    if roots != [] {
      EmptyRootsAreSkipped(root, roots[1..], sel);
      if roots[0] != "" {
        var w := [roots[0]] + WithoutEmpty(roots[1..]);
        assert w[0] == roots[0] && w[1..] == WithoutEmpty(roots[1..]);
      }
    }
  }

  /** A non-empty selector's training paths replace whatever the caller
      passed. */
  lemma SelectorOverridesRoots(root: Dir, dirs1: Roots, dirs2: Roots, sel: Selector)
    requires !sel.isEmpty
    ensures GetCoreNluFiles(root, dirs1, Some(sel)) == CollectRoots(root, sel.trainingPaths, sel)
    ensures GetCoreNluFiles(root, dirs1, Some(sel)) == GetCoreNluFiles(root, dirs2, Some(sel))
  {
  }

  /** A single path behaves as the one-element list holding it. */
  lemma OneRootIsSingletonList(root: Dir, path: string, selector: Option<Selector>)
    ensures GetCoreNluFiles(root, OneRoot(path), selector) == GetCoreNluFiles(root, RootList([path]), selector)
  {
  }

  /** Without a selector every directory is imported. */
  lemma NoSelectorImportsEverything(root: Dir, directories: Roots)
    ensures GetCoreNluFiles(root, directories, None) == GetCoreNluFiles(root, directories, Some(EmptySelector()))
  {
  }

  /** A path the loader reports: it names a file whose basename has one of
      the two extensions and whose sniff puts it on side `nlu`. */
  ghost predicate ClassifiedAs(root: Dir, path: string, nlu: bool) {
    match Resolve(root, path)
    case Some(FileNode(f)) => IsTrainingDataName(Basename(path)) && IsNluFile(path, f.body) == Ok(nlu)
    case _ => false
  }

  /** Every reported path is classified as the side it is on. */
  ghost predicate Sound(root: Dir, p: Partition) {
    && (forall x :: x in p.stories ==> ClassifiedAs(root, x, false))
    && (forall x :: x in p.nlu ==> ClassifiedAs(root, x, true))
  }

  /** A sound partition never puts a path on both sides. */
  lemma SoundPartitionIsDisjoint(root: Dir, p: Partition)
    requires Sound(root, p)
    ensures p.stories !! p.nlu
  {
  }

  /** One directory's scan in a well-formed tree is sound. */
  lemma FindInDirectorySound(root: Dir, top: string, sel: Selector)
    requires WellFormed(root) && FindInDirectory(root, top, sel).Ok?
    ensures Sound(root, FindInDirectory(root, top, sel).value)
  {
    match Resolve(root, top)
    case Some(DirNode(d)) =>
      ClassifySets(WalkDir(top, d, sel));
      WalkEntriesClassified(root, top, d, sel, true);
      WalkEntriesClassified(root, top, d, sel, false);
    case _ =>
  }

  /** A walked file sorted to one side is classified as that side under
      the path it is reported with. */
  lemma WalkEntriesClassified(root: Dir, top: string, d: Dir, sel: Selector, nlu: bool)
    requires WellFormed(root) && Resolve(root, top) == Some(DirNode(d))
    ensures forall e :: e in WalkDir(top, d, sel) && SortedAs(e, nlu) ==> ClassifiedAs(root, e.path, nlu)
  {
    var es := WalkDir(top, d, sel);
    WalkResolves(root, top, d, sel);
    LookupWellFormed(root, Components(top));
    WalkDepth(top, d, sel);
    forall e | e in es && SortedAs(e, nlu)
      ensures ClassifiedAs(root, e.path, nlu)
    {
      BasenameJoin(e.dir, e.file.name);
    }
  }

  /** Collecting over many roots stays sound. */
  lemma CollectRootsSound(root: Dir, roots: seq<string>, sel: Selector)
    requires WellFormed(root) && CollectRoots(root, roots, sel).Ok?
    ensures Sound(root, CollectRoots(root, roots, sel).value)
  {
    CollectRootsUnion(root, roots, sel, false);
    CollectRootsUnion(root, roots, sel, true);
    forall k | 0 <= k < |roots| && roots[k] != ""
      ensures Sound(root, ScanOf(root, roots[k], sel).value)
    {
      FindInDirectorySound(root, roots[k], sel);
    }
  }

  /** The loader's two sets are disjoint, and hold only paths of `.json` and
      `.md` files classified as the side they are on. */
  lemma PartitionIsDisjoint(root: Dir, directories: Roots, selector: Option<Selector>)
    requires WellFormed(root) && GetCoreNluFiles(root, directories, selector).Ok?
    ensures GetCoreNluFiles(root, directories, selector).value.stories !! GetCoreNluFiles(root, directories, selector).value.nlu
    ensures Sound(root, GetCoreNluFiles(root, directories, selector).value)
  {
    var sel := if selector.Some? then selector.value else EmptySelector();
    CollectRootsSound(root, RootPaths(directories, sel), sel);
    SoundPartitionIsDisjoint(root, GetCoreNluFiles(root, directories, selector).value);
  }

  /** Every `.json` or `.md` file in a directory the scan reaches under an
      imported path lands on exactly one side: the one its sniff names. */
  lemma ImportedFileIsPartitioned(root: Dir, top: string, sel: Selector, d: Dir, rel: seq<string>, sub: Dir, f: File)
    requires WellFormed(root) && Resolve(root, top) == Some(DirNode(d))
    requires Lookup(d, rel) == Some(DirNode(sub)) && f in sub.files
    requires IsTrainingDataName(f.name) && sel.isImported(JoinAll(top, rel))
    requires FindInDirectory(root, top, sel).Ok?
    ensures var x := Join(JoinAll(top, rel), f.name);
            var p := FindInDirectory(root, top, sel).value;
            && (x in p.nlu <==> IsNluFile(x, f.body) == Ok(true))
            && (x in p.stories <==> IsNluFile(x, f.body) == Ok(false))
            && (x in p.stories <==> x !in p.nlu)
  {
    var x := Join(JoinAll(top, rel), f.name);
    var es := WalkDir(top, d, sel);
    var e := Entry(JoinAll(top, rel), x, f);
    WalkComplete(top, d, sel, rel, sub, f);
    ClassifySets(es);
    ClassifySucceeds(es);
    WalkResolves(root, top, d, sel);
    assert !Fails(e);
    forall e' | e' in es && e'.path == x
      ensures e'.file == f
    {
      assert Resolve(root, x) == Some(FileNode(e'.file));
    }
  }

  /** A directory the walk reaches as `JoinAll(top, rel)` and the selector
      does not import contributes none of its own files, whatever their
      content and however deep below the root it lies. */
  lemma PrunedDirectoryContributesNoOwnFile(root: Dir, top: string, sel: Selector, d: Dir, rel: seq<string>, sub: Dir, k: nat)
    requires WellFormed(root) && Resolve(root, top) == Some(DirNode(d))
    requires Lookup(d, rel) == Some(DirNode(sub)) && k < |sub.files|
    requires !sel.isImported(JoinAll(top, rel))
    requires FindInDirectory(root, top, sel).Ok?
    ensures Join(JoinAll(top, rel), sub.files[k].name) !in FindInDirectory(root, top, sel).value.stories
    ensures Join(JoinAll(top, rel), sub.files[k].name) !in FindInDirectory(root, top, sel).value.nlu
  {
    LookupWellFormed(root, Components(top));
    ClassifySets(WalkDir(top, d, sel));
    PrunedDirectoryReportsNoOwnFile(top, d, sel, rel, sub, k);
  }

  /** A file whose name has neither extension is never reported, on either
      side. */
  lemma OtherExtensionNeverReported(root: Dir, directories: Roots, selector: Option<Selector>, x: string)
    requires WellFormed(root) && GetCoreNluFiles(root, directories, selector).Ok?
    requires !IsTrainingDataName(Basename(x))
    ensures x !in GetCoreNluFiles(root, directories, selector).value.stories
    ensures x !in GetCoreNluFiles(root, directories, selector).value.nlu
  {
    PartitionIsDisjoint(root, directories, selector);
  }
}

=== FILE: paths.dfy ===
/** POSIX path strings as `os.path` treats them: `join`, `basename`, and the
    split into components that the model uses to resolve a path in a tree. */
module Paths {

  /** A name a directory entry can carry: non-empty, no separator, and not
      one of the two reserved names. */
  predicate ValidName(n: string) {
    n != "" && n != "." && n != ".." && '/' !in n
  }

  predicate ValidNames(names: seq<string>) {
    forall k :: 0 <= k < |names| ==> ValidName(names[k])
  }

  /** `posixpath.join(dir, name)` for two arguments. */
  function Join(dir: string, name: string): (p: string)
    ensures |name| > 0 && name[0] == '/' ==> p == name
    ensures !(|name| > 0 && name[0] == '/') ==> |p| >= |dir| + |name| && p[|p| - |name|..] == name && p[..|dir|] == dir
  {
    if |name| > 0 && name[0] == '/' then name
    else if dir == "" || dir[|dir| - 1] == '/' then dir + name
    else dir + "/" + name
  }

  /** Joins a sequence of names onto `dir`, left to right, as `os.walk`
      does while it descends. */
  function JoinAll(dir: string, names: seq<string>): string
    decreases |names|
  {
    if names == [] then dir else JoinAll(Join(dir, names[0]), names[1..])
  }

  /** Index of the last separator in `s`. */
  function LastSlash(s: string): (i: nat)
    requires '/' in s
    ensures i < |s| && s[i] == '/'
    ensures forall j :: i < j < |s| ==> s[j] != '/'
    decreases |s|
  {
    if s[|s| - 1] == '/' then |s| - 1
    else
      assert '/' in s[..|s| - 1] by {
        var k :| 0 <= k < |s| && s[k] == '/';
        assert s[..|s| - 1][k] == '/';
      }
      LastSlash(s[..|s| - 1])
  }

  /** `posixpath.basename`: everything after the last separator. */
  function Basename(p: string): (b: string)
    ensures '/' !in b
    ensures |b| <= |p| && p[|p| - |b|..] == b
    ensures |b| < |p| ==> p[|p| - |b| - 1] == '/'
  {
    if '/' in p then p[LastSlash(p) + 1..] else p
  }

  /** The components a path names, in order: separators split it, and the
      empty and "." components that repeated or trailing separators and
      "./" produce name nothing. */
  function Components(p: string): (cs: seq<string>)
    ensures forall k :: 0 <= k < |cs| ==> cs[k] != "" && cs[k] != "." && '/' !in cs[k]
    decreases |p|
  {
    if '/' !in p then Keep(p)
    else
      var i := LastSlash(p);
      Components(p[..i]) + Keep(p[i + 1..])
  }

  function Keep(c: string): seq<string> {
    if c == "" || c == "." then [] else [c]
  }

  /** Joining a valid name adds exactly that name as the last component. */
  lemma ComponentsJoin(dir: string, n: string)
    requires ValidName(n)
    ensures Components(Join(dir, n)) == Components(dir) + [n]
  {
    if dir == "" {
      assert Join(dir, n) == n;
    } else if dir[|dir| - 1] == '/' {
      ComponentsJoinAfterSeparator(dir, n);
    } else {
      ComponentsJoinAddingSeparator(dir, n);
    }
  }

  /** Joining valid names one by one appends exactly those names to the
      components, so the path the walk builds for a directory remembers
      how it was reached. */
  lemma {:induction false} ComponentsJoinAll(dir: string, names: seq<string>)
    requires ValidNames(names)
    ensures Components(JoinAll(dir, names)) == Components(dir) + names
    decreases |names|
  {
    if names != [] {
      var next := Join(dir, names[0]);
      var head := Components(dir);
      var tail := names[1..];
      assert JoinAll(dir, names) == JoinAll(next, tail);
      ComponentsJoin(dir, names[0]);
      ComponentsJoinAll(next, tail);
      AppendFirst(head, names);
    }
  }

  /** Appending a non-empty sequence is appending its first element, then
      the rest. */
  lemma AppendFirst(head: seq<string>, names: seq<string>)
    requires names != []
    ensures head + [names[0]] + names[1..] == head + names
  {
    assert [names[0]] + names[1..] == names;
  }

  lemma ComponentsJoinAfterSeparator(dir: string, n: string)
    requires ValidName(n) && dir != "" && dir[|dir| - 1] == '/'
    ensures Components(dir + n) == Components(dir) + [n]
  {
    var p := dir + n;
    assert LastSlash(p) == |dir| - 1 by {
      assert p[|dir| - 1] == '/';
      forall j | |dir| - 1 < j < |p| ensures p[j] != '/' {
        assert p[j] == n[j - |dir|];
      }
      LastSlashUnique(p, |dir| - 1);
    }
    assert p[..|dir| - 1] == dir[..|dir| - 1];
    assert p[|dir|..] == n;
    LastSlashUnique(dir, |dir| - 1);
    assert dir[|dir|..] == "";
  }

  lemma ComponentsJoinAddingSeparator(dir: string, n: string)
    requires ValidName(n) && dir != "" && dir[|dir| - 1] != '/'
    ensures Components(dir + "/" + n) == Components(dir) + [n]
  {
    var p := dir + "/" + n;
    assert LastSlash(p) == |dir| by {
      assert p[|dir|] == '/';
      forall j | |dir| < j < |p| ensures p[j] != '/' {
        assert p[j] == n[j - |dir| - 1];
      }
      LastSlashUnique(p, |dir|);
    }
    assert p[..|dir|] == dir;
    assert p[|dir| + 1..] == n;
  }

  /** Any separator with none after it is the last one. */
  lemma LastSlashUnique(s: string, i: nat)
    requires i < |s| && s[i] == '/'
    requires forall j :: i < j < |s| ==> s[j] != '/'
    ensures LastSlash(s) == i
  {
  }

  /** The basename of a joined path is the name that was joined. */
  lemma BasenameJoin(dir: string, n: string)
    requires ValidName(n)
    ensures Basename(Join(dir, n)) == n
  {
    var p := Join(dir, n);
    if dir != "" {
      var x := if dir[|dir| - 1] == '/' then dir else dir + "/";
      assert p == x + n;
      forall j | |x| - 1 < j < |p| ensures p[j] != '/' {
        assert p[j] == n[j - |x|];
      }
      LastSlashUnique(p, |x| - 1);
      assert p[|x|..] == n;
    }
  }
}

=== FILE: results.dfy ===
/** Option and Result, the two wrappers the model uses for absent values and
    for the exceptions the training-data loader lets escape to its caller. */
module Results {

  datatype Option<+T> = None | Some(value: T)

  datatype Result<+T, +E> = Ok(value: T) | Err(error: E)
}

=== FILE: staging.dfy ===
/** `_copy_files_to_new_dir`: every file of a set is copied into one fresh
    directory under the name `<uuid4 hex>_<basename>`. The fresh directory
    is modelled by its listing: staged name to the source path whose
    content the copy holds. The `uuid4` source is a token stream passed in. */
module Staging {
  import opened Paths

  /** A staging directory, by its listing: staged name to source path. */
  type StagingDir = map<string, string>

  predicate IsHexDigit(c: char) {
    '0' <= c <= '9' || 'a' <= c <= 'f'
  }

  /** The shape of `uuid.uuid4().hex`: 32 lower-case hexadecimal digits. */
  predicate IsUuidHex(t: string) {
    |t| == 32 && forall k :: 0 <= k < |t| ==> IsHexDigit(t[k])
  }

  /** The results of successive `uuid4()` calls, as many as a run draws:
      every token has the uuid shape and no token repeats. */
  predicate FreshTokens(tokens: seq<string>) {
    && (forall i :: 0 <= i < |tokens| ==> IsUuidHex(tokens[i]))
    && (forall i, j :: 0 <= i < j < |tokens| ==> tokens[i] != tokens[j])
  }

  /** The name a copy of `path` gets with prefix `token`. */
  function StagedName(token: string, path: string): string {
    token + "_" + Basename(path)
  }

  /** A staged name splits back into its token and the source's basename. */
  lemma StagedNameParts(token: string, path: string)
    ensures var s := StagedName(token, path);
            && |s| == |token| + 1 + |Basename(path)|
            && s[..|token|] == token
            && s[|token|] == '_'
            && s[|token| + 1..] == Basename(path)
  {
    var s := StagedName(token, path);
    assert s[..|token|] == token;
    assert s[|token| + 1..] == Basename(path);
  }

  /** Distinct tokens of one length give distinct names, even for two
      sources with the same basename. */
  lemma StagedNamesDistinct(t1: string, p1: string, t2: string, p2: string)
    requires |t1| == |t2| && t1 != t2
    ensures StagedName(t1, p1) != StagedName(t2, p2)
  {
    StagedNameParts(t1, p1);
    StagedNameParts(t2, p2);
  }

  /** A staged name built from a uuid token and the basename of `source`. */
  predicate StagedShape(name: string, source: string) {
    && |name| >= 33
    && IsUuidHex(name[..32])
    && name[32] == '_'
    && name[33..] == Basename(source)
  }

  /** Adding a fresh key adds its value to the map's values. */
  lemma ValuesOfFreshUpdate(m: map<string, string>, k: string, v: string)
    requires k !in m
    ensures m[k := v].Values == m.Values + {v}
  {
    forall x | x in m[k := v].Values
      ensures x in m.Values + {v}
    {
      var n :| n in m[k := v] && m[k := v][n] == x;
      if n != k {
        assert n in m && m[n] == x;
      }
    }
    forall x | x in m.Values + {v}
      ensures x in m[k := v].Values
    {
      if x != v {
        var n :| n in m && m[n] == x;
        assert m[k := v][n] == x;
      } else {
        assert m[k := v][k] == v;
      }
    }
  }

  /** Every entry of `staged` is named with one of the first `used`
      tokens and the basename of its source. */
  ghost predicate NamedByTokens(staged: StagingDir, tokens: seq<string>, used: nat) {
    && used <= |tokens|
    && forall name :: name in staged ==> exists i :: 0 <= i < used && name == StagedName(tokens[i], staged[name])
  }

  /** Staging one more file with the next token overwrites nothing. */
  lemma StageNext(staged: StagingDir, tokens: seq<string>, used: nat, f: string)
    requires FreshTokens(tokens) && used < |tokens| && NamedByTokens(staged, tokens, used)
    ensures StagedName(tokens[used], f) !in staged
    ensures NamedByTokens(staged[StagedName(tokens[used], f) := f], tokens, used + 1)
  {
    var name := StagedName(tokens[used], f);
    if name in staged {
      var i :| 0 <= i < used && name == StagedName(tokens[i], staged[name]);
      StagedNamesDistinct(tokens[i], staged[name], tokens[used], f);
    }
    var next := staged[name := f];
    forall n | n in next
      ensures exists i :: 0 <= i < used + 1 && n == StagedName(tokens[i], next[n])
    {
      if n == name {
        assert n == StagedName(tokens[used], next[n]);
      } else {
        var i :| 0 <= i < used && n == StagedName(tokens[i], staged[n]);
        assert next[n] == staged[n];
      }
    }
  }

  /** What holds after `used` files of `files` are staged and `remaining`
      are still to do: each staged file has its own entry. */
  ghost predicate StagingProgress(files: set<string>, remaining: set<string>, staged: StagingDir, used: nat)
  {
    && remaining <= files
    && used + |remaining| == |files|
    && staged.Values == files - remaining
    && |staged| == used
  }

  /** No two entries of a staging directory share their 32-character
      generated prefix: every staged file got its own token. */
  predicate DistinctPrefixes(staged: StagingDir) {
    && (forall n :: n in staged ==> |n| >= 32)
    && (forall n1, n2 :: n1 in staged && n2 in staged && n1 != n2 ==> n1[..32] != n2[..32])
  }

  /** Staging one more file with the next token keeps the prefixes
      distinct: the new prefix is a token no earlier entry used. */
  lemma StageNextPrefix(staged: StagingDir, tokens: seq<string>, used: nat, f: string)
    requires FreshTokens(tokens) && used < |tokens| && NamedByTokens(staged, tokens, used)
    requires DistinctPrefixes(staged)
    ensures DistinctPrefixes(staged[StagedName(tokens[used], f) := f])
  {
    var name := StagedName(tokens[used], f);
    var next := staged[name := f];
    StagedNameParts(tokens[used], f);
    forall n | n in staged
      ensures |n| >= 32 && n[..32] != name[..32]
    {
      var i :| 0 <= i < used && n == StagedName(tokens[i], staged[n]);
      StagedNameParts(tokens[i], staged[n]);
    }
    forall n1, n2 | n1 in next && n2 in next && n1 != n2
      ensures n1[..32] != n2[..32]
    {
      if n1 != name && n2 != name {
        assert n1 in staged && n2 in staged;
      }
    }
  }

  /** Staging one more file from `remaining` under a name not yet taken
      keeps the progress invariant. */
  lemma StagingStep(files: set<string>, remaining: set<string>, staged: StagingDir,
                    used: nat, f: string, name: string)
    requires StagingProgress(files, remaining, staged, used) && f in remaining && name !in staged
    ensures StagingProgress(files, remaining - {f}, staged[name := f], used + 1)
  {
    ValuesOfFreshUpdate(staged, name, f);
    assert files - (remaining - {f}) == (files - remaining) + {f};
  }

  /** Names built from uuid-shaped tokens have the staged shape. */
  lemma NamedByTokensHasShape(staged: StagingDir, tokens: seq<string>, used: nat)
    requires FreshTokens(tokens) && NamedByTokens(staged, tokens, used)
    ensures forall name :: name in staged ==> StagedShape(name, staged[name])
  {
    forall name | name in staged
      ensures StagedShape(name, staged[name])
    {
      var i :| 0 <= i < used && name == StagedName(tokens[i], staged[name]);
      StagedNameParts(tokens[i], staged[name]);
    }
  }

  /** The loop of `_copy_files_to_new_dir`: stages the files one by one in
      an unspecified order, each under the next token. */
  method StageAll(files: set<string>, tokens: seq<string>) returns (staged: StagingDir)
    requires FreshTokens(tokens) && |files| <= |tokens|
    ensures StagingProgress(files, {}, staged, |files|)
    ensures NamedByTokens(staged, tokens, |files|)
    ensures DistinctPrefixes(staged)
  {
    staged := map[];
    var remaining := files;
    var used: nat := 0;
    while remaining != {}
      invariant StagingProgress(files, remaining, staged, used)
      invariant NamedByTokens(staged, tokens, used)
      invariant DistinctPrefixes(staged)
      decreases remaining
    {
      var f :| f in remaining;
      var name := StagedName(tokens[used], f);
      StageNext(staged, tokens, used, f);
      StageNextPrefix(staged, tokens, used, f);
      StagingStep(files, remaining, staged, used, f, name);
      staged := staged[name := f];
      remaining := remaining - {f};
      used := used + 1;
    }
  }

  /** Copies every file of `files` into a fresh directory, drawing one token
      per file; the set is visited in an unspecified order. With fresh
      tokens no copy overwrites another: the directory holds exactly one
      entry per file, and no two entries share a generated prefix. */
  method CopyFilesToNewDir(files: set<string>, tokens: seq<string>) returns (staged: StagingDir)
    requires FreshTokens(tokens) && |files| <= |tokens|
    ensures staged.Values == files
    ensures |staged| == |files|
    ensures files == {} ==> staged == map[]
    ensures forall name :: name in staged ==> exists i :: 0 <= i < |files| && name == StagedName(tokens[i], staged[name])
    ensures forall name :: name in staged ==> StagedShape(name, staged[name])
    ensures DistinctPrefixes(staged)
  {
    staged := StageAll(files, tokens);
    NamedByTokensHasShape(staged, tokens, |files|);
    if files == {} {
      assert staged.Keys == {};
    }
  }

  /** The tokens left after the first `n` are drawn are still fresh. */
  lemma DropFresh(tokens: seq<string>, n: nat)
    requires FreshTokens(tokens) && n <= |tokens|
    ensures FreshTokens(tokens[n..])
  {
    var later := tokens[n..];
    forall i, j | 0 <= i < j < |later|
      ensures later[i] != later[j]
    {
      assert later[i] == tokens[i + n] && later[j] == tokens[j + n];
    }
  }
}

=== FILE: walker.dfy ===
/** The walk `_find_core_nlu_files_in_directory` performs with `os.walk`:
    top-down, every directory visited, and the files of a directory the
    selector does not import skipped while its subdirectories are still
    visited. */
module Walker {
  import opened Results
  import opened Paths
  import opened FileTree

  /** What the loader asks of a `SkillSelector`: whether it restricts
      anything, the training paths it declares, and whether a directory
      (given by the path string the walk reached it under) is imported. */
  datatype Selector = Selector(isEmpty: bool, trainingPaths: seq<string>, isImported: string -> bool)

  /** `SkillSelector.empty()`: no restriction, every directory imported. */
  function EmptySelector(): Selector {
    Selector(true, [], _ => true)
  }

  /** A file the walk reports: the directory path it was listed under, its
      joined path, and the file itself. */
  datatype Entry = Entry(dir: string, path: string, file: File)

  /** The files of one directory, in listing order, each under the path
      joined from the directory's path and its name. */
  function ListFiles(dir: string, files: seq<File>): seq<Entry> {
    seq(|files|, k requires 0 <= k < |files| => Entry(dir, Join(dir, files[k].name), files[k]))
  }

  /** Everything the walk reports below `d`, which it reached as `top`:
      the files of `d` itself when `top` is imported, then each
      subdirectory's walk in listing order. */
  function WalkDir(top: string, d: Dir, sel: Selector): (es: seq<Entry>)
    ensures forall e :: e in es ==> sel.isImported(e.dir) && e.path == Join(e.dir, e.file.name)
    decreases d, 1, 0
  {
    var own := if sel.isImported(top) then ListFiles(top, d.files) else [];
    var below := WalkSubdirs(top, d, 0, sel);
    assert forall e :: e in own + below ==> e in own || e in below;
    own + below
  }

  /** The walks of `d.subdirs[i..]`. */
  function WalkSubdirs(top: string, d: Dir, i: nat, sel: Selector): (es: seq<Entry>)
    requires i <= |d.subdirs|
    ensures forall e :: e in es ==> sel.isImported(e.dir) && e.path == Join(e.dir, e.file.name)
    decreases d, 0, |d.subdirs| - i
  {
    if i == |d.subdirs| then []
    else
      var here := WalkDir(Join(top, d.subdirs[i].name), d.subdirs[i], sel);
      var rest := WalkSubdirs(top, d, i + 1, sel);
      assert forall e :: e in here + rest ==> e in here || e in rest;
      here + rest
  }

  /** In a well-formed tree every reported path names the reported file,
      so a path is never reported with two different contents. */
  lemma {:induction false} WalkResolves(root: Dir, top: string, d: Dir, sel: Selector)
    requires WellFormed(root) && Resolve(root, top) == Some(DirNode(d))
    ensures forall e :: e in WalkDir(top, d, sel) ==> Resolve(root, e.path) == Some(FileNode(e.file))
    decreases d, 1, 0
  {
    LookupWellFormed(root, Components(top));
    var own := if sel.isImported(top) then ListFiles(top, d.files) else [];
    forall e | e in own
      ensures Resolve(root, e.path) == Some(FileNode(e.file))
    {
      var k :| 0 <= k < |own| && own[k] == e;
      ComponentsJoin(top, d.files[k].name);
      LookupAppend(root, Components(top), d.files[k].name);
      ChildFile(d, k);
    }
    WalkSubdirsResolve(root, top, d, 0, sel);
  }

  lemma {:induction false} WalkSubdirsResolve(root: Dir, top: string, d: Dir, i: nat, sel: Selector)
    requires WellFormed(root) && Resolve(root, top) == Some(DirNode(d))
    requires i <= |d.subdirs|
    ensures forall e :: e in WalkSubdirs(top, d, i, sel) ==> Resolve(root, e.path) == Some(FileNode(e.file))
    decreases d, 0, |d.subdirs| - i
  {
    if i < |d.subdirs| {
      var s := d.subdirs[i];
      LookupWellFormed(root, Components(top));
      ComponentsJoin(top, s.name);
      LookupAppend(root, Components(top), s.name);
      ChildDir(d, i);
      WalkResolves(root, Join(top, s.name), s, sel);
      WalkSubdirsResolve(root, top, d, i + 1, sel);
    }
  }

  /** In a well-formed tree every reported file has a valid name, and it
      was listed under `top` itself or under a path with more components. */
  lemma {:induction false} WalkDepth(top: string, d: Dir, sel: Selector)
    requires WellFormed(d)
    ensures forall e :: e in WalkDir(top, d, sel) ==>
              ValidName(e.file.name) && (e.dir == top || |Components(e.dir)| > |Components(top)|)
    decreases d, 1, 0
  {
    WalkSubdirsDepth(top, d, 0, sel);
  }

  lemma {:induction false} WalkSubdirsDepth(top: string, d: Dir, i: nat, sel: Selector)
    requires WellFormed(d) && i <= |d.subdirs|
    ensures forall e :: e in WalkSubdirs(top, d, i, sel) ==>
              ValidName(e.file.name) && |Components(e.dir)| > |Components(top)|
    decreases d, 0, |d.subdirs| - i
  {
    if i < |d.subdirs| {
      var s := d.subdirs[i];
      var here := WalkDir(Join(top, s.name), s, sel);
      var rest := WalkSubdirs(top, d, i + 1, sel);
      ComponentsJoin(top, s.name);
      WalkDepth(Join(top, s.name), s, sel);
      WalkSubdirsDepth(top, d, i + 1, sel);
      forall e: Entry | e in here + rest
        ensures ValidName(e.file.name) && |Components(e.dir)| > |Components(top)|
      {
        if e in here {
          assert e.dir == Join(top, s.name) || |Components(e.dir)| > |Components(Join(top, s.name))|;
        }
      }
    }
  }

  /** Every file the walk reports was listed under a path built by
      joining valid names onto `top`. */
  lemma {:induction false} WalkDirsReached(top: string, d: Dir, sel: Selector)
    requires WellFormed(d)
    ensures forall e :: e in WalkDir(top, d, sel) ==>
              exists rel :: ValidNames(rel) && e.dir == JoinAll(top, rel)
    decreases d, 1, 0
  {
    var own := if sel.isImported(top) then ListFiles(top, d.files) else [];
    forall e | e in own
      ensures exists rel :: ValidNames(rel) && e.dir == JoinAll(top, rel)
    {
      assert e.dir == JoinAll(top, []);
    }
    WalkSubdirsReached(top, d, 0, sel);
  }

  lemma {:induction false} WalkSubdirsReached(top: string, d: Dir, i: nat, sel: Selector)
    requires WellFormed(d) && i <= |d.subdirs|
    ensures forall e :: e in WalkSubdirs(top, d, i, sel) ==>
              exists rel :: ValidNames(rel) && e.dir == JoinAll(top, rel)
    decreases d, 0, |d.subdirs| - i
  {
    if i < |d.subdirs| {
      var s := d.subdirs[i];
      var here := WalkDir(Join(top, s.name), s, sel);
      var rest := WalkSubdirs(top, d, i + 1, sel);
      assert WalkSubdirs(top, d, i, sel) == here + rest;
      WalkDirsReached(Join(top, s.name), s, sel);
      WalkSubdirsReached(top, d, i + 1, sel);
      forall e: Entry | e in here + rest
        ensures exists rel :: ValidNames(rel) && e.dir == JoinAll(top, rel)
      {
        if e in here {
          ReachedThroughChild(top, s.name, e.dir);
        }
      }
    }
  }

  /** A directory reached from the child `name` of `top` is reached from
      `top` along one more name. */
  lemma ReachedThroughChild(top: string, name: string, dir: string)
    requires ValidName(name)
    requires exists rel :: ValidNames(rel) && dir == JoinAll(Join(top, name), rel)
    ensures exists rel :: ValidNames(rel) && dir == JoinAll(top, rel)
  {
    var rel :| ValidNames(rel) && dir == JoinAll(Join(top, name), rel);
    var longer := [name] + rel;
    assert longer[0] == name && longer[1..] == rel;
    assert ValidNames(longer);
    assert dir == JoinAll(top, longer);
  }

  /** When the selector does not import the directory the walk reaches as
      `JoinAll(top, rel)`, no file listed directly in it is reported, at
      whatever depth below `top` it lies and whatever lies below it. */
  lemma PrunedDirectoryReportsNoOwnFile(top: string, d: Dir, sel: Selector, rel: seq<string>, sub: Dir, k: nat)
    requires WellFormed(d) && Lookup(d, rel) == Some(DirNode(sub)) && k < |sub.files|
    requires !sel.isImported(JoinAll(top, rel))
    ensures forall e :: e in WalkDir(top, d, sel) ==> e.path != Join(JoinAll(top, rel), sub.files[k].name)
  {
    var pruned := JoinAll(top, rel);
    var n := sub.files[k].name;
    LookupNamesValid(d, rel);
    LookupWellFormed(d, rel);
    ComponentsJoinAll(top, rel);
    ComponentsJoin(pruned, n);
    WalkDepth(top, d, sel);
    WalkDirsReached(top, d, sel);
    forall e | e in WalkDir(top, d, sel)
      ensures e.path != Join(pruned, n)
    {
      var other :| ValidNames(other) && e.dir == JoinAll(top, other);
      if e.path == Join(pruned, n) {
        ComponentsJoinAll(top, other);
        ComponentsJoin(e.dir, e.file.name);
        SameReachedDirectory(Components(top), other, rel, e.file.name, n);
        assert false;
      }
    }
  }

  /** Two directories reached from the same top whose files have the same
      components were reached along the same names. */
  lemma SameReachedDirectory(prefix: seq<string>, a: seq<string>, b: seq<string>, x: string, y: string)
    requires prefix + a + [x] == prefix + b + [y]
    ensures a == b
  {
    var l := prefix + a + [x];
    assert |a| == |b|;
    assert l[|prefix|..|prefix| + |a|] == a;
    assert (prefix + b + [y])[|prefix|..|prefix| + |b|] == b;
  }

  /** A subdirectory's walk is part of the walk of the subdirectories from
      any earlier index on. */
  lemma {:induction false} SubdirWalkIncluded(top: string, d: Dir, i: nat, k: nat, sel: Selector)
    requires i <= k < |d.subdirs|
    ensures forall e :: e in WalkDir(Join(top, d.subdirs[k].name), d.subdirs[k], sel) ==> e in WalkSubdirs(top, d, i, sel)
    decreases k - i
  {
    var here := WalkDir(Join(top, d.subdirs[i].name), d.subdirs[i], sel);
    var rest := WalkSubdirs(top, d, i + 1, sel);
    assert WalkSubdirs(top, d, i, sel) == here + rest;
    if i < k {
      SubdirWalkIncluded(top, d, i + 1, k, sel);
    }
  }

  /** Every file of every directory the walk reaches under an imported
      path is reported, under the path the walk builds for it. */
  lemma {:induction false} WalkComplete(top: string, d: Dir, sel: Selector, rel: seq<string>, sub: Dir, f: File)
    requires Lookup(d, rel) == Some(DirNode(sub)) && f in sub.files
    requires sel.isImported(JoinAll(top, rel))
    ensures Entry(JoinAll(top, rel), Join(JoinAll(top, rel), f.name), f) in WalkDir(top, d, sel)
    decreases |rel|
  {
    if rel == [] {
      var k :| 0 <= k < |d.files| && d.files[k] == f;
      assert ListFiles(top, d.files)[k] == Entry(top, Join(top, f.name), f);
    } else {
      match Child(d, rel[0])
      case Some(DirNode(c)) =>
        var k :| 0 <= k < |d.subdirs| && d.subdirs[k] == c && c.name == rel[0];
        WalkComplete(Join(top, rel[0]), c, sel, rel[1..], sub, f);
        SubdirWalkIncluded(top, d, 0, k, sel);
      case Some(FileNode(_)) =>
      case None =>
    }
  }
}
